=== FILE: README.md ===
# Random-BPM metronome: a Dafny model of its beat scheduler

The metronome plays a click on every beat and draws a new random tempo for every
beat. The tempo is drawn from a range the user types in as two numbers, the
lowest and the highest BPM. Successive clicks alternate between a strong
(higher, louder) and a weak click. This project models the logic of
`src/App.tsx` that does this work:

- `clamping.dfy` (module `Clamping`): turning the raw lowest/highest inputs into
  a valid range `20 <= low <= high <= 300`.
- `random.dfy` (module `RandomDraw`): the inclusive integer draw. `Draw` takes the
  chosen offset directly. `GetRandomIntInclusive` keeps the helper's
  ceiling/floor arithmetic over exact reals, with the uniform sample `u` in
  `[0, 1)` as a parameter.
- `click.dfy` (module `Click`): the parameters `playClick` gives a click. These are
  the square wave, the pitch, and the gain envelope with its timing. They use
  integer units: Hz, gain in ten-thousandths of full scale, and milliseconds.
- `scheduler.dfy` (module `Scheduler`): the play/stop state machine. It is an
  immutable `State` with the pure transitions `Start`, `Stop`, `Step` (one
  scheduling step) and `TimerFire` (the timer callback). `Run` folds a sequence
  of user and timer events over this state. An invariant `Inv` holds in every
  reachable state.

The browser hosts become plain data. The audio context is the `audioReady`
flag. Each click played is appended to the `clicks` log as a `Beat` that
carries its tempo and accent. The timer is the `timer` field, which holds the
last timer set and not yet cleared, together with the tempo whose beat period
is its delay. Each step is given a `Choice`: the raw bound inputs it reads and
the random offset it draws.

Play is also given how the audio host answers (`AudioHost`). Creating the
audio context can fail, and so can resuming it. Either failure leaves the
component stopped.

Three behaviours of the code that the model keeps:

- The accent toggle is never reset by Stop (App.tsx:47, :72, :98-106). It
  starts `true` and is flipped before each click. So the first click of the
  session is the weak one, and click number `i` of the whole session (counted
  from 0) is strong exactly when `i` is odd, across any number of Play/Stop
  presses.
- When no audio context exists, a step still publishes the tempo and flips the
  accent, then returns before setting a timer (App.tsx:68-75).
  `PlayingStepAlwaysSchedules` shows this branch is never taken while playing.
- The timer reference is not cleared when a timer fires; only Stop clears it
  (App.tsx:79-82, :102-105).

## Model

| member | source | states |
|---|---|---|
| Clamping.ClampLow | src/App.tsx:62 | the clamped lowest BPM lies in [20, 300], and equals the input exactly when the input already lies there |
| Clamping.ClampHigh | src/App.tsx:63 | the clamped highest BPM is at least the clamped lowest and at most 300, and equals the input exactly when the input lies in [low, 300] or equals low |
| Clamping.ClampBounds | src/App.tsx:62-63 | for every pair of integer inputs, 20 <= low <= high <= 300 |
| Clamping.ClampLowIsNearest | src/App.tsx:62 | the clamped lowest BPM is the value of [20, 300] nearest to the input |
| Clamping.ClampHighIsNearest | src/App.tsx:63 | the clamped highest BPM is the value of [low, 300] nearest to the input |
| Clamping.ClampBoundsIsProjection | src/App.tsx:62-63 | a valid range passes through clamping unchanged, and clamping twice equals clamping once |
| Clamping.ClampBoundsUnchangedIff | src/App.tsx:62-63 | clamping leaves the inputs unchanged if and only if they already form a valid range |
| Clamping.InvertedInputCollapses | src/App.tsx:63 | the inverted input (150, 100) yields the range 150..150 |
| Clamping.HighRaisedToLowIff | src/App.tsx:63 | the range collapses to one tempo exactly when the capped highest input is not above the clamped lowest |
| RandomDraw.Draw | src/App.tsx:33-37 | the drawn tempo lies in [low, high] for every offset in [0, high - low] |
| RandomDraw.DrawCoversRange | src/App.tsx:36 | every value of [low, high] is drawn by some offset |
| RandomDraw.DrawInjective | src/App.tsx:36 | two offsets give the same tempo if and only if they are equal, so a uniform offset gives a uniform tempo |
| RandomDraw.DrawDegenerate | src/App.tsx:33-37 | with low == high the draw always returns low |
| RandomDraw.Ceil | src/App.tsx:34 | the rounded-up minimum is the least integer not below it |
| RandomDraw.RandomIndex | src/App.tsx:36 | the floor of u times a positive width n lies in [0, n) |
| RandomDraw.GetRandomIntInclusive | src/App.tsx:33-37 | when the rounded bounds are ordered, the result is an integer between the rounded-up minimum and the rounded-down maximum, hence within [min, max] |
| RandomDraw.GetRandomIntInclusiveIsDraw | src/App.tsx:33-37 | on integer bounds the helper equals the offset draw, with an offset in [0, high - low] |
| RandomDraw.FractionalBoundsEscapeRange | src/App.tsx:33-37 | on the fractional bounds 60.5 and 60.7, which enclose no integer, the helper returns 61 for every sample, above the maximum |
| Click.ClickFor | src/App.tsx:14-30 | each click has a positive frequency and an envelope with strictly positive gains at strictly increasing times; the envelope rises above the resting level and is back at it when the oscillator stops at 30 ms |
| Click.StrongBeatIsEmphasised | src/App.tsx:14-20 | the strong click is higher (1200 vs 900 Hz) and louder (peak 0.6 vs 0.45) than the weak one, by 4:3 in both |
| Click.AccentChangesOnlyPitchAndPeak | src/App.tsx:15-30 | waveform, envelope timing and stop time do not depend on the accent |
| Click.AttackPrecedesEnd | src/App.tsx:19-24 | the peak is reached at 5 ms, after the start and before the end at 30 ms |
| Scheduler.BeatPeriodMs | src/App.tsx:69 | the timer delay times the tempo is one minute, and for tempi in [20, 300] it lies between 200 ms and 3 s |
| Scheduler.StepCanShowEveryTempo | src/App.tsx:65-68 | for any raw bounds and any tempo of their clamped range, some valid offset makes a step show that tempo |
| Scheduler.StepTempoInjective | src/App.tsx:65-68 | with the same raw bounds, two valid offsets make a step show the same tempo if and only if they are equal |
| Scheduler.Step | src/App.tsx:65-83 | a step shows a tempo within the clamped bounds and negates the accent; with audio it logs one click with that tempo and accent and sets a timer for it; without audio it plays nothing and sets no timer |
| Scheduler.Start | src/App.tsx:85-96 | Play while playing changes nothing; a failed context creation changes nothing; a rejected resume keeps the new context and changes nothing else; otherwise the state becomes playing with audio and the result is exactly one scheduling step with the given choice, so the first beat's tempo is the one its offset draws: the accent is negated, and one click with that accent and a tempo in range is played at once, with a timer set for that tempo |
| Scheduler.Stop | src/App.tsx:98-106 | Stop leaves the flag clear, the UI stopped, no tempo shown and no timer, and keeps the accent, the audio context and the clicks played |
| Scheduler.TimerFire | src/App.tsx:79-82 | a timer firing while the flag is clear changes nothing; while set, it performs one step |
| Scheduler.InitialInv | src/App.tsx:40-48 | the initial state satisfies the reachable-state invariant |
| Scheduler.ApplyKeepsInv | src/App.tsx:65-106 | Play, Stop and a timer firing each keep the invariant: UI and flag agree; while playing there is audio, one timer and a shown tempo equal to the last click's; while stopped there is no timer and no tempo; click i is strong iff i is odd |
| Scheduler.RunKeepsInv | src/App.tsx:65-106 | every sequence of events from an invariant state ends in an invariant state |
| Scheduler.SessionSoundsAlternate | src/App.tsx:14-20 | for every event sequence from the initial state, any two consecutive clicks differ in pitch and in peak loudness |
| Scheduler.SessionBeatsAlternate | src/App.tsx:47-106 | for every event sequence from the initial state, the first click is weak, consecutive clicks strictly alternate in accent, and every click's tempo lies in [20, 300] |
| Scheduler.PlayingStepAlwaysSchedules | src/App.tsx:75-82 | in a reachable playing state, a timer firing always plays one click of the negated accent and sets the next timer |
| Scheduler.PlayWhilePlayingIsNoop | src/App.tsx:86 | while playing, any number of Play presses, whatever the audio host answers, leave the state unchanged: no new timer, no click, same tempo and accent |
| Scheduler.FailedPlayStaysStopped | src/App.tsx:87-92 | in a reachable stopped state, a Play whose context creation or resume fails leaves the component stopped, with no tempo, timer or click, the accent unchanged, and the invariant kept |
| Scheduler.StopIdempotent | src/App.tsx:98-106 | pressing Stop twice equals pressing it once |
| Scheduler.StepsToggleParity | src/App.tsx:72 | after n steps the accent equals its start value when n is even and its negation when n is odd |
| Scheduler.SilentAfterStop | src/App.tsx:79-81 | after Stop, any number of timers firing leave the state unchanged: no click, no timer, no tempo |
| Scheduler.FixedTempoSixty | src/App.tsx:65-82 | with both bounds at 60 every step draws 60, and with audio it sets a timer for 60 BPM, whose period is 1000 ms |
| Scheduler.FirstBeatImmediate | src/App.tsx:92-95 | pressing Play when stopped, with the audio context obtained and resumed, plays the first click at once, with a tempo in the clamped range |

## Left out

- Web Audio calls (creating, connecting, starting and stopping the oscillator and gain nodes; creating, resuming and closing the audio context): browser APIs. Audio is the `audioReady` flag plus the `clicks` log, and `ClickFor` gives a click's parameters. Whether creating and resuming the context succeed is an `AudioHost` argument of `Start`; why they fail is not modelled.
- The exponential ramp curves between envelope points and the audio clock's absolute time: floating point and host behaviour. Only the points and their order are modelled.
- `Math.random`: replaced by an explicit offset (`Draw`) or an explicit sample `u` in `[0, 1)` (`GetRandomIntInclusive`). No probability is modelled. That every tempo of the range can appear, each from exactly one offset, is stated of the shown tempo by `StepCanShowEveryTempo` plus `StepTempoInjective` (every beat is a `Step`: the first beat after Play by `Start`'s contract, later beats by `TimerFire`'s), and of the draw alone by `DrawCoversRange` plus `DrawInjective`.
- RandomDraw.GetRandomIntInclusive: uses exact reals, not IEEE doubles. Rounding in `Math.random() * width` is not modelled. Its range promise is conditional on the rounded bounds being ordered. With fractional bounds that enclose no integer, the helper returns a value outside [min, max] (`FractionalBoundsEscapeRange`). It arises in the program when a decimal is typed into either field (App.tsx:116, :120); the model excludes it by taking the inputs as integers.
- Scheduler.BeatPeriodMs: the delay is the exact real 60000/bpm. The browser's own rounding of timer delays is not modelled.
- The `await` on resuming the audio context in Play, and React's asynchronous state updates: concurrency. Play is modelled as one atomic transition whose outcome is fixed by its `AudioHost` argument. The rejected promise itself, passed back to the click handler, is not modelled. A Play pressed twice before the first resume completes is not modelled.
- Closure capture: the timer callback reuses the scheduling function, and so the bounds, of the render in which Play ran. Here each step is simply given its `Choice`, whichever bounds it holds.
- Timer identities and the host's queue of timers: the model keeps only the timer last set, and a firing is an event the caller supplies.
- Unmount cleanup (clearing the timer and closing the audio context), the JSX markup and inputs, and the `|| 0` fallback for non-numeric input: presentation and host glue. Inputs are modelled as integers.
- `vite.config.ts`: build configuration with no logic.

=== FILE: clamping.dfy ===
/** Turning the two raw BPM inputs into the tempo range the metronome draws from.

    The lowest BPM is forced into [MinBpm, MaxBpm]; the highest BPM is capped at
    MaxBpm and then raised, if need be, to the clamped lowest BPM, so that an
    inverted pair such as (150, 100) collapses to the single tempo 150.
 */
module Clamping {

  /** Slowest tempo the metronome will ever use, in beats per minute. */
  const MinBpm: int := 20
  /** Fastest tempo the metronome will ever use, in beats per minute. */
  const MaxBpm: int := 300

  function Max(a: int, b: int): int { if a >= b then a else b }
  function Min(a: int, b: int): int { if a <= b then a else b }

  /** Distance between two integers, used to state that clamping picks the nearest value. */
  function Dist(a: int, b: int): nat { if a >= b then a - b else b - a }

  /** An inclusive tempo range, in BPM. */
  datatype TempoBounds = TempoBounds(low: int, high: int) {

    /** The range the scheduler may draw from: non-empty and inside [MinBpm, MaxBpm]. */
    predicate Valid() { MinBpm <= low <= high <= MaxBpm }

    predicate Contains(bpm: int) { low <= bpm <= high }
  }

  /** The clamped lowest BPM. */
  function ClampLow(raw: int): (low: int)
    ensures MinBpm <= low <= MaxBpm
    ensures low == raw <==> MinBpm <= raw <= MaxBpm
  {
    Max(MinBpm, Min(MaxBpm, raw))
  }

  /** The clamped highest BPM, given the already clamped lowest BPM. */
  function ClampHigh(low: int, raw: int): (high: int)
    ensures low <= high
    ensures low <= MaxBpm ==> high <= MaxBpm
    ensures high == raw <==> low <= raw <= MaxBpm || raw == low
  {
    Max(low, Min(MaxBpm, raw))
  }

  /** Both clamps together: the range the scheduler actually uses. */
  function ClampBounds(rawLow: int, rawHigh: int): (b: TempoBounds)
    ensures b.Valid()
    ensures b.low == ClampLow(rawLow) && b.high == ClampHigh(b.low, rawHigh)
  {
    var low := ClampLow(rawLow);
    TempoBounds(low, ClampHigh(low, rawHigh))
  }

  /** Clamping the lowest BPM picks the value of [MinBpm, MaxBpm] nearest to the input. */
  lemma ClampLowIsNearest(raw: int, v: int)
    requires MinBpm <= v <= MaxBpm
    ensures Dist(raw, ClampLow(raw)) <= Dist(raw, v)
  {
  }

  /** Clamping the highest BPM picks the value of [low, MaxBpm] nearest to the input. */
  lemma ClampHighIsNearest(low: int, raw: int, v: int)
    requires low <= v <= MaxBpm
    ensures Dist(raw, ClampHigh(low, raw)) <= Dist(raw, v)
  {
  }

  /** Clamping is a projection: a range that is already valid comes back unchanged,
      and clamping a clamped range changes nothing. */
  lemma ClampBoundsIsProjection(rawLow: int, rawHigh: int)
    ensures TempoBounds(rawLow, rawHigh).Valid() ==> ClampBounds(rawLow, rawHigh) == TempoBounds(rawLow, rawHigh)
    ensures var b := ClampBounds(rawLow, rawHigh); ClampBounds(b.low, b.high) == b
  {
  }

  /** The clamped range agrees with the raw inputs exactly when they already form a valid range. */
  lemma ClampBoundsUnchangedIff(rawLow: int, rawHigh: int)
    ensures ClampBounds(rawLow, rawHigh) == TempoBounds(rawLow, rawHigh) <==> TempoBounds(rawLow, rawHigh).Valid()
  {
  }

  /** An inverted pair is resolved by raising the highest BPM to the lowest. */
  lemma InvertedInputCollapses()
    ensures ClampBounds(150, 100) == TempoBounds(150, 150)
  {
  }

  /** Raising the highest BPM to the lowest happens exactly when the capped input falls below it. */
  lemma HighRaisedToLowIff(rawLow: int, rawHigh: int)
    ensures var b := ClampBounds(rawLow, rawHigh);
            b.high == b.low <==> Min(MaxBpm, rawHigh) <= b.low
  {
  }
}

=== FILE: click.dfy ===
/** The parameters of one synthesised click.

    A click is a square wave at one of two pitches whose gain starts at a small
    positive resting level, rises exponentially to a peak within the attack time,
    falls exponentially back to the resting level at the end of the click, and
    stops there. Units are integers: frequency in Hz, gain in ten-thousandths of
    full scale, time in milliseconds from the start of the click.
 */
module Click {

  const StrongHz: int := 1200
  const WeakHz: int := 900
  /** 0.6 of full scale. */
  const StrongPeak: int := 6000
  /** 0.45 of full scale. */
  const WeakPeak: int := 4500
  /** 0.0001 of full scale: the floor the exponential ramps start from and return to. */
  const RestGain: int := 1
  /** 0.005 s. */
  const AttackMs: int := 5
  /** 0.03 s. */
  const DurationMs: int := 30

  datatype Waveform = Square

  /** The gain the envelope reaches at a given time. */
  datatype EnvelopePoint = EnvelopePoint(atMs: int, gain: int)

  datatype ClickSound = ClickSound(wave: Waveform, frequencyHz: int, envelope: seq<EnvelopePoint>, stopMs: int)

  /** An envelope exponential ramps can follow: every gain strictly positive and the
      points strictly increasing in time from the start of the click. */
  predicate RampableEnvelope(env: seq<EnvelopePoint>)
  {
    && |env| > 0
    && env[0].atMs == 0
    && (forall i :: 0 <= i < |env| ==> env[i].gain > 0)
    && (forall i, j :: 0 <= i < j < |env| ==> env[i].atMs < env[j].atMs)
  }

  /** The largest gain of a non-empty envelope. */
  function PeakGain(env: seq<EnvelopePoint>): (g: int)
    requires |env| > 0
    ensures forall i :: 0 <= i < |env| ==> env[i].gain <= g
    ensures exists i :: 0 <= i < |env| && env[i].gain == g
  {
    if |env| == 1 then env[0].gain
    else
      var rest := PeakGain(env[1..]);
      assert forall i :: 1 <= i < |env| ==> env[i] == env[1..][i - 1];
      if env[0].gain >= rest then env[0].gain else rest
  }

  /** A well-formed click: audible frequency, rampable envelope that rises above the
      resting level and returns to it exactly when the oscillator stops. */
  predicate WellFormed(c: ClickSound)
  {
    && c.frequencyHz > 0
    && RampableEnvelope(c.envelope)
    && c.envelope[0].gain == RestGain
    && PeakGain(c.envelope) > RestGain
    && c.envelope[|c.envelope| - 1] == EnvelopePoint(c.stopMs, RestGain)
  }

  /** The click played for a strong or a weak beat. */
  function ClickFor(strong: bool): (c: ClickSound)
    ensures WellFormed(c)
    ensures c.stopMs == DurationMs && c.wave == Square
    ensures PeakGain(c.envelope) == (if strong then StrongPeak else WeakPeak)
    ensures c.frequencyHz == (if strong then StrongHz else WeakHz)
  {
    var peak := if strong then StrongPeak else WeakPeak;
    var env := [EnvelopePoint(0, RestGain), EnvelopePoint(AttackMs, peak), EnvelopePoint(DurationMs, RestGain)];
    assert env[1].gain == peak;
    ClickSound(Square, if strong then StrongHz else WeakHz, env, DurationMs)
  }

  /** The strong beat is higher and louder than the weak beat, by a ratio of 4:3 in both. */
  lemma StrongBeatIsEmphasised()
    ensures ClickFor(true).frequencyHz > ClickFor(false).frequencyHz
    ensures PeakGain(ClickFor(true).envelope) > PeakGain(ClickFor(false).envelope)
    ensures 3 * ClickFor(true).frequencyHz == 4 * ClickFor(false).frequencyHz
    ensures 3 * PeakGain(ClickFor(true).envelope) == 4 * PeakGain(ClickFor(false).envelope)
  {
  }

  /** Only pitch and loudness depend on the accent: timbre, timing and length do not. */
  lemma AccentChangesOnlyPitchAndPeak(a: bool, b: bool, i: nat)
    requires i < |ClickFor(a).envelope|
    ensures ClickFor(a).wave == ClickFor(b).wave
    ensures ClickFor(a).stopMs == ClickFor(b).stopMs
    ensures |ClickFor(a).envelope| == |ClickFor(b).envelope|
    ensures ClickFor(a).envelope[i].atMs == ClickFor(b).envelope[i].atMs
  {
  }

  /** The peak is reached at the end of the attack, before the click ends. */
  lemma AttackPrecedesEnd(strong: bool)
    ensures var env := ClickFor(strong).envelope;
            0 < env[1].atMs == AttackMs < DurationMs == env[|env| - 1].atMs
            && env[1].gain == PeakGain(env)
  {
  }
}

=== FILE: random.dfy ===
/** The inclusive random integer draw used to pick each beat's tempo.

    The random source is abstracted in two ways. `Draw` takes the chosen offset
    from the bottom of the range directly. `GetRandomIntInclusive` takes the
    uniform sample u in [0, 1) and follows the arithmetic of the
    `getRandomIntInclusive` helper of App.tsx (ceiling of the minimum, floor of
    the maximum, floor of u times the range width), with exact real numbers in
    place of floating point.
 */
module RandomDraw {

  /** The tempo for a chosen offset r from the bottom of [low, high]. */
  function Draw(low: int, high: int, r: int): (v: int)
    requires 0 <= r <= high - low
    ensures low <= v <= high
  {
    low + r
  }

  /** Every value of the range is produced by some offset: no tempo is unreachable. */
  lemma DrawCoversRange(low: int, high: int, v: int)
    requires low <= v <= high
    ensures exists r :: 0 <= r <= high - low && Draw(low, high, r) == v
  {
    assert Draw(low, high, v - low) == v;
  }

  /** Distinct offsets give distinct tempi, so a uniform offset gives a uniform tempo. */
  lemma DrawInjective(low: int, high: int, r1: int, r2: int)
    requires 0 <= r1 <= high - low && 0 <= r2 <= high - low
    ensures Draw(low, high, r1) == Draw(low, high, r2) <==> r1 == r2
  {
  }

  /** A one-value range always yields that value. */
  lemma DrawDegenerate(low: int, high: int, r: int)
    requires low == high && 0 <= r <= high - low
    ensures Draw(low, high, r) == low
  {
  }

  function Floor(x: real): int { x.Floor }

  /** The least integer not below x. */
  function Ceil(x: real): (c: int)
    ensures x <= c as real < x + 1.0
  {
    -((-x).Floor)
  }

  /** The floor of u * n for a sample u in [0, 1): an index into a range of n values. */
  function RandomIndex(u: real, n: int): (k: int)
    requires 0.0 <= u < 1.0
    ensures n >= 1 ==> 0 <= k < n
  {
    Floor(u * n as real)
  }

  /** The `getRandomIntInclusive` helper of App.tsx: an integer in [ceil(min), floor(max)] from a uniform sample u. */
  function GetRandomIntInclusive(min: real, max: real, u: real): (v: int)
    requires 0.0 <= u < 1.0
    ensures Ceil(min) <= Floor(max) ==> Ceil(min) <= v <= Floor(max)
    ensures Ceil(min) <= Floor(max) ==> min <= v as real <= max
  {
    var low := Ceil(min);
    var high := Floor(max);
    RandomIndex(u, high - low + 1) + low
  }

  /** On integer bounds the `getRandomIntInclusive` helper of App.tsx is the offset draw with offset floor(u * width). */
  lemma GetRandomIntInclusiveIsDraw(low: int, high: int, u: real)
    requires low <= high
    requires 0.0 <= u < 1.0
    ensures 0 <= RandomIndex(u, high - low + 1) <= high - low
    ensures GetRandomIntInclusive(low as real, high as real, u) == Draw(low, high, RandomIndex(u, high - low + 1))
  {
    assert Ceil(low as real) == low;
    assert Floor(high as real) == high;
  }

  /** With fractional bounds that enclose no integer, the helper's arithmetic still
      returns an integer, and it lies outside [min, max]: 60.5..60.7 yields 61. */
  lemma FractionalBoundsEscapeRange(u: real)
    requires 0.0 <= u < 1.0
    ensures GetRandomIntInclusive(60.5, 60.7, u) == 61
    ensures 60.7 < GetRandomIntInclusive(60.5, 60.7, u) as real
  {
    assert Ceil(60.5) == 61;
    assert Floor(60.7) == 60;
    assert RandomIndex(u, 0) == 0;
  }
}

=== FILE: scheduler.dfy ===
/** The play/stop state machine that drives the beats.

    The browser's audio and timer hosts are abstracted into fields of an
    immutable `State`: whether an audio context exists, the timer the scheduler
    last set (with the tempo that sets its delay), and the log of clicks played
    so far. Each scheduling step is given the raw bound inputs it uses and the
    random offset it draws, as a `Choice`. Pressing Play is given how the audio
    host answers: whether creating an audio context and resuming it succeed.
 */
module Scheduler {
  import opened Clamping
  import opened RandomDraw
  import Click

  datatype Option<T> = None | Some(value: T)

  /** The state shown by the user interface. */
  datatype UiState = Stopped | Playing

  /** A one-shot wake-up set for the beat period of the tempo `bpm`. */
  datatype Timer = Timer(bpm: int)

  /** One audible click: the tempo drawn for it and whether it was the strong beat. */
  datatype Beat = Beat(bpm: int, strong: bool)

  /** The sound a logged click makes. */
  function SoundOf(b: Beat): Click.ClickSound { Click.ClickFor(b.strong) }

  datatype State = State(
    isPlaying: bool,        // the flag the timer callback consults
    ui: UiState,            // the displayed play/stop state
    timer: Option<Timer>,   // the timer last set and not cleared
    strongToggle: bool,     // accent of the most recent beat
    currentBpm: Option<int>,// the displayed tempo
    audioReady: bool,       // whether an audio context exists
    clicks: seq<Beat>)      // every click played, oldest first

  /** What one scheduling step reads: the raw bound inputs and the offset drawn within them. */
  datatype Choice = Choice(rawLow: int, rawHigh: int, offset: int) {
    function Bounds(): TempoBounds { ClampBounds(rawLow, rawHigh) }
    predicate Valid() { 0 <= offset <= Bounds().high - Bounds().low }
  }

  /** The state when the component is first shown: stopped, accent toggle set, no audio yet. */
  const Initial: State := State(false, Stopped, None, true, None, false, [])

  /** The beat period in milliseconds for a tempo. */
  function BeatPeriodMs(bpm: int): (ms: real)
    requires bpm > 0
    ensures ms * bpm as real == 60000.0
    ensures MinBpm <= bpm <= MaxBpm ==> 200.0 <= ms <= 3000.0
  {
    60000.0 / bpm as real
  }

  /** One scheduling step: draw a tempo, publish it, flip the accent, and, when an
      audio context exists, play the click and set the timer for the next step. */
  function Step(s: State, c: Choice): (t: State)
    requires c.Valid()
    ensures t.currentBpm.Some? && c.Bounds().Contains(t.currentBpm.value)
    ensures t.strongToggle == !s.strongToggle
    ensures t.isPlaying == s.isPlaying && t.ui == s.ui && t.audioReady == s.audioReady
    ensures s.audioReady ==> t.clicks == s.clicks + [Beat(t.currentBpm.value, t.strongToggle)]
    ensures s.audioReady ==> t.timer == Some(Timer(t.currentBpm.value))
    ensures !s.audioReady ==> t.clicks == s.clicks && t.timer == s.timer
  {
    var bpm := Draw(c.Bounds().low, c.Bounds().high, c.offset);
    var flipped := s.(currentBpm := Some(bpm), strongToggle := !s.strongToggle);
    if !flipped.audioReady then flipped
    else flipped.(clicks := s.clicks + [Beat(bpm, flipped.strongToggle)], timer := Some(Timer(bpm)))
  }

  /** Every tempo of the clamped range is shown by a step for some offset: no
      tempo of the range is unreachable, whatever the state. */
  lemma StepCanShowEveryTempo(s: State, rawLow: int, rawHigh: int, v: int)
    requires ClampBounds(rawLow, rawHigh).Contains(v)
    ensures exists off :: Choice(rawLow, rawHigh, off).Valid() && Step(s, Choice(rawLow, rawHigh, off)).currentBpm == Some(v)
  {
    var c := Choice(rawLow, rawHigh, v - ClampBounds(rawLow, rawHigh).low);
    assert c.Valid() && Step(s, c).currentBpm == Some(v);
  }

  /** With the same raw bounds, two offsets show the same tempo exactly when they are
      equal: offsets and shown tempi correspond one to one, so a uniform offset gives
      a uniform tempo. */
  lemma StepTempoInjective(s: State, rawLow: int, rawHigh: int, o1: int, o2: int)
    requires Choice(rawLow, rawHigh, o1).Valid() && Choice(rawLow, rawHigh, o2).Valid()
    ensures Step(s, Choice(rawLow, rawHigh, o1)).currentBpm == Step(s, Choice(rawLow, rawHigh, o2)).currentBpm
            <==> o1 == o2
  {
  }

  /** How the audio host answers Play: whether creating an audio context succeeds
      (asked only when none exists yet) and whether resuming it succeeds. */
  datatype AudioHost = AudioHost(createOk: bool, resumeOk: bool)

  /** Play gets past obtaining and resuming the audio context. */
  predicate AudioStarts(s: State, h: AudioHost)
  {
    (s.audioReady || h.createOk) && h.resumeOk
  }

  /** Pressing Play: nothing if already playing; otherwise obtain the audio context,
      resume it, mark the state playing and run the first step at once. A failed
      creation changes nothing; a rejected resume leaves the new context in place
      and the component stopped. */
  function Start(s: State, c: Choice, h: AudioHost): (t: State)
    requires c.Valid()
    ensures s.ui == Playing ==> t == s
    ensures s.ui == Stopped && !s.audioReady && !h.createOk ==> t == s
    ensures s.ui == Stopped && (s.audioReady || h.createOk) && !h.resumeOk ==> t == s.(audioReady := true)
    ensures s.ui == Stopped && AudioStarts(s, h) ==>
              && t.isPlaying && t.ui == Playing && t.audioReady
              && t.currentBpm.Some? && c.Bounds().Contains(t.currentBpm.value)
              && t.strongToggle == !s.strongToggle
              && t.timer == Some(Timer(t.currentBpm.value))
              && t.clicks == s.clicks + [Beat(t.currentBpm.value, !s.strongToggle)]
    ensures s.ui == Stopped && AudioStarts(s, h) ==>
              t == Step(s.(audioReady := true, isPlaying := true, ui := Playing), c)
  {
    if s.ui == Playing then s
    else if !s.audioReady && !h.createOk then s
    else
      var withAudio := s.(audioReady := true);
      if !h.resumeOk then withAudio
      else Step(withAudio.(isPlaying := true, ui := Playing), c)
  }

  /** Pressing Stop: clear the flag and the displayed tempo, cancel the timer. */
  function Stop(s: State): (t: State)
    ensures !t.isPlaying && t.ui == Stopped && t.currentBpm == None && t.timer == None
    ensures t.strongToggle == s.strongToggle && t.audioReady == s.audioReady && t.clicks == s.clicks
  {
    s.(isPlaying := false, ui := Stopped, currentBpm := None, timer := None)
  }

  /** The timer callback: a further step only while the playing flag is still set. */
  function TimerFire(s: State, c: Choice): (t: State)
    requires c.Valid()
    ensures !s.isPlaying ==> t == s
    ensures s.isPlaying ==> t == Step(s, c)
  {
    if !s.isPlaying then s else Step(s, c)
  }

  /** The things that can happen to the component. */
  datatype Event = PressPlay(c: Choice, h: AudioHost) | PressStop | TimerFires(c: Choice) {
    predicate Valid() { (PressPlay? || TimerFires?) ==> c.Valid() }
  }

  predicate AllValid(es: seq<Event>) { forall i :: 0 <= i < |es| ==> es[i].Valid() }

  function Apply(s: State, e: Event): State
    requires e.Valid()
  {
    match e
    case PressPlay(c, h) => Start(s, c, h)
    case PressStop => Stop(s)
    case TimerFires(c) => TimerFire(s, c)
  }

  /** The state after a sequence of events. */
  function Run(s: State, es: seq<Event>): State
    requires AllValid(es)
    decreases |es|
  {
    if |es| == 0 then s else Run(Apply(s, es[0]), es[1..])
  }

  /** Beat i of the whole session (counted from 0) is strong exactly when i is odd. */
  predicate AccentPattern(clicks: seq<Beat>)
  {
    forall i :: 0 <= i < |clicks| ==> clicks[i].strong == (i % 2 == 1)
  }

  /** What holds of every state the component can reach. */
  predicate Inv(s: State)
  {
    && (s.ui == Playing <==> s.isPlaying)
    && (s.isPlaying ==> s.audioReady && s.timer.Some? && s.currentBpm.Some? && |s.clicks| > 0)
    && (s.isPlaying ==> s.timer.value.bpm == s.currentBpm.value == s.clicks[|s.clicks| - 1].bpm)
    && (!s.isPlaying ==> s.timer.None? && s.currentBpm.None?)
    && s.strongToggle == (|s.clicks| % 2 == 0)
    && AccentPattern(s.clicks)
    && (forall i :: 0 <= i < |s.clicks| ==> MinBpm <= s.clicks[i].bpm <= MaxBpm)
  }

  lemma InitialInv()
    ensures Inv(Initial)
  {
  }

  /** Every event keeps the invariant. */
  lemma ApplyKeepsInv(s: State, e: Event)
    requires Inv(s) && e.Valid()
    ensures Inv(Apply(s, e))
  {
  }

  /** Every state reached from an invariant state keeps the invariant. */
  lemma {:induction false} RunKeepsInv(s: State, es: seq<Event>)
    requires Inv(s) && AllValid(es)
    ensures Inv(Run(s, es))
    decreases |es|
  {
    if |es| > 0 {
      ApplyKeepsInv(s, es[0]);
      assert AllValid(es[1..]) by {
        forall i | 0 <= i < |es[1..]| ensures es[1..][i].Valid() { assert es[1..][i] == es[i + 1]; }
      }
      RunKeepsInv(Apply(s, es[0]), es[1..]);
    }
  }

  /** Over the whole session, clicks alternate strictly between weak and strong, starting
      with a weak one, however the tempo varies and however often play and stop are pressed;
      every click's tempo lies in [MinBpm, MaxBpm]. */
  lemma SessionBeatsAlternate(es: seq<Event>)
    requires AllValid(es)
    ensures var clicks := Run(Initial, es).clicks;
            && (|clicks| > 0 ==> !clicks[0].strong)
            && (forall i :: 0 <= i < |clicks| - 1 ==> clicks[i + 1].strong == !clicks[i].strong)
            && (forall i :: 0 <= i < |clicks| ==> MinBpm <= clicks[i].bpm <= MaxBpm)
  {
    InitialInv();
    RunKeepsInv(Initial, es);
    var clicks := Run(Initial, es).clicks;
    forall i | 0 <= i < |clicks| - 1
      ensures clicks[i + 1].strong == !clicks[i].strong
    {
      assert clicks[i].strong == (i % 2 == 1);
      assert clicks[i + 1].strong == ((i + 1) % 2 == 1);
    }
  }

  /** While playing, a timer firing always plays a click and sets the next timer:
      the early return for a missing audio context never happens. */
  lemma PlayingStepAlwaysSchedules(s: State, c: Choice)
    requires Inv(s) && s.isPlaying && c.Valid()
    ensures var t := TimerFire(s, c);
            && |t.clicks| == |s.clicks| + 1
            && t.timer == Some(Timer(t.currentBpm.value))
            && t.clicks[|s.clicks|].strong == !s.strongToggle
  {
  }

  predicate OnlyPlayPresses(es: seq<Event>) { forall i :: 0 <= i < |es| ==> es[i].PressPlay? }

  /** Pressing Play any number of times while playing changes nothing: no second
      timer, no click, same tempo, same accent, whatever the audio host answers. */
  lemma {:induction false} PlayWhilePlayingIsNoop(s: State, es: seq<Event>)
    requires s.ui == Playing && AllValid(es) && OnlyPlayPresses(es)
    ensures Run(s, es) == s
    decreases |es|
  {
    if |es| > 0 {
      assert AllValid(es[1..]) && OnlyPlayPresses(es[1..]) by {
        assert forall i :: 0 <= i < |es[1..]| ==> es[1..][i] == es[i + 1];
      }
      assert Apply(s, es[0]) == s;
      PlayWhilePlayingIsNoop(s, es[1..]);
    }
  }

  /** In a reachable state, a Play whose audio fails leaves the component stopped:
      no tempo, no timer, no click. */
  lemma FailedPlayStaysStopped(s: State, c: Choice, h: AudioHost)
    requires Inv(s) && !s.isPlaying && c.Valid() && !AudioStarts(s, h)
    ensures var t := Start(s, c, h);
            && !t.isPlaying && t.ui == Stopped && t.currentBpm == None && t.timer == None
            && t.clicks == s.clicks && t.strongToggle == s.strongToggle
            && Inv(t)
  {
  }

  /** Pressing Stop twice is the same as pressing it once. */
  lemma StopIdempotent(s: State)
    ensures Stop(Stop(s)) == Stop(s)
  {
  }

  /** A run of scheduling steps, each with its own choice. */
  function Steps(s: State, cs: seq<Choice>): State
    requires forall i :: 0 <= i < |cs| ==> cs[i].Valid()
    decreases |cs|
  {
    if |cs| == 0 then s else Steps(Step(s, cs[0]), cs[1..])
  }

  /** After n steps the accent toggle is back where it started when n is even, and
      flipped when n is odd, whatever tempi were drawn. */
  lemma {:induction false} StepsToggleParity(s: State, cs: seq<Choice>)
    requires forall i :: 0 <= i < |cs| ==> cs[i].Valid()
    ensures Steps(s, cs).strongToggle == (if |cs| % 2 == 0 then s.strongToggle else !s.strongToggle)
    decreases |cs|
  {
    if |cs| > 0 {
      assert forall i :: 0 <= i < |cs[1..]| ==> cs[1..][i] == cs[i + 1];
      StepsToggleParity(Step(s, cs[0]), cs[1..]);
    }
  }

  predicate OnlyTimerFires(es: seq<Event>) { forall i :: 0 <= i < |es| ==> es[i].TimerFires? }

  /** Once stopped, timers that still fire do nothing at all: no click, no new timer,
      no tempo shown. */
  lemma {:induction false} SilentAfterStop(s: State, es: seq<Event>)
    requires AllValid(es) && OnlyTimerFires(es)
    ensures Run(Stop(s), es) == Stop(s)
    decreases |es|
  {
    if |es| > 0 {
      assert AllValid(es[1..]) && OnlyTimerFires(es[1..]) by {
        assert forall i :: 0 <= i < |es[1..]| ==> es[1..][i] == es[i + 1];
      }
      assert Apply(Stop(s), es[0]) == Stop(s);
      SilentAfterStop(s, es[1..]);
    }
  }

  /** With both bounds at 60 every step draws 60 and, with audio, sets a timer
      of one second. */
  lemma FixedTempoSixty(s: State, c: Choice)
    requires c.rawLow == 60 && c.rawHigh == 60 && c.Valid()
    ensures Step(s, c).currentBpm == Some(60)
    ensures s.audioReady ==> Step(s, c).timer == Some(Timer(60))
    ensures BeatPeriodMs(Step(s, c).currentBpm.value) == 1000.0
  {
  }

  /** The first beat after Play fires at once with a tempo in the clamped range. */
  lemma FirstBeatImmediate(s: State, c: Choice, h: AudioHost)
    requires Inv(s) && !s.isPlaying && c.Valid() && AudioStarts(s, h)
    ensures var t := Start(s, c, h);
            && |t.clicks| == |s.clicks| + 1
            && c.Bounds().Contains(t.clicks[|s.clicks|].bpm)
            && Inv(t)
  {
    ApplyKeepsInv(s, PressPlay(c, h));
  }

  /** Over the whole session, consecutive clicks always sound different: they alternate
      between the lower, quieter weak click and the higher, louder strong click. */
  lemma SessionSoundsAlternate(es: seq<Event>, i: int)
    requires AllValid(es)
    requires 0 <= i < |Run(Initial, es).clicks| - 1
    ensures var clicks := Run(Initial, es).clicks;
            SoundOf(clicks[i]).frequencyHz != SoundOf(clicks[i + 1]).frequencyHz
            && Click.PeakGain(SoundOf(clicks[i]).envelope) != Click.PeakGain(SoundOf(clicks[i + 1]).envelope)
  {
    SessionBeatsAlternate(es);
  }
}
